=== FILE: README.md ===
# Leveraged-token NAV history aggregator

This project models the only algorithmic piece of the Risedle interface frontend. That piece is the
`useLeveragedTokenHistoricalData` hook, which turns a leveraged token's hourly NAV (net asset
value) history into five chart timeframes. The hook is written twice, almost word for word,
in `utils/snapshot.ts` and `components/v1/swr/useLeveragedTokenHistoricalData.ts`. Both copies
map onto one shared model. The fetching is not modelled, and the two copies read different endpoint tables. A lemma shows that for the same fetched `data` and `error`, the two copies compute the same result and differ only in the names of their output fields.

The hook works in two steps:

1. **`filterOutSameNAV`** builds a JavaScript `Map` keyed by `nav` from the fetched samples and
   reads its values back. A later sample with a NAV already seen overwrites that key's value,
   but the key keeps its first position. The result keeps, for each distinct NAV, the *last*
   sample carrying it, placed where that NAV was *first* seen. `undefined` passes through. An
   empty array is truthy, so it becomes `[]`.
2. **Windowing** takes `slice(-k)` of the cleaned series for k = 24, 168, 336, 672 and 2016
   hours. For each window it records the NAV of its last and first sample and
   `((latest - oldest) / oldest) * 100`. The hook also returns `isLoading = !error && !data`
   and passes `error` on.

Modules:

- `Wrappers` (`wrappers.dfy`): `Option`, the model of `T | undefined`.
- `Seqs` (`seqs.dfy`): first/last index of a value, distinctness, and "first-seen order"
  with its uniqueness lemma.
- `JsMap` (`js_map.dfy`): an insertion-ordered association list standing for a JavaScript
  `Map`. `Set` is `map.set` and `FromEntries` is the `Map` constructor.
- `History` (`history.dfy`): the `Sample` record (`LeveragedTokenHistoricalData`),
  `Dedup`, `FilterOutSameNav`, and the declarative characterisation `IsDedupOf`.
- `Aggregation` (`aggregation.dfy`): the timeframes and `Array.prototype.slice`. It also
  models JavaScript's `undefined` element read and the `TypeError` from reading `.nav` of
  `undefined`. It holds the percent change, one timeframe block, the five windows, and the
  shared hook body `Aggregate`.
- `Snapshot` (`snapshot_hook.dfy`) and `SwrHistoricalData` (`swr_hook.dfy`): the two exported
  hooks with their own field names. `SwrHistoricalData.AgreesWithSnapshot` relates them.

Modelling choices:

- **Empty series.** When `data` is present but empty, the hook reads `.nav` of `undefined`
  and throws a `TypeError`. The model keeps this crash. Every hook result is an
  `Outcome` that is either `Returned(value)` or `Threw(NavOfUndefined)`. The contracts state
  that the hook throws exactly when `data` is `Some([])`. There is no precondition that
  excludes this case.
- **Division by zero.** When the oldest NAV is 0, the formula yields `Infinity`,
  `-Infinity` or `NaN` in JavaScript. The model writes this out as
  `Change = Finite(percent) | Infinite(positive) | NotANumber`, chosen by the sign of the
  latest NAV.
- **Numbers.** NAVs and the other numeric fields are `real`.
- **Inputs.** The fetch layer's `data` and `error` become plain parameters. The error type
  is a type parameter `E`.

## Model

| member | source | states |
|---|---|---|
| JsMap.Set | utils/snapshot.ts:75 | `map.set` on a present key replaces that entry's value in place and keeps every other entry. On a new key it appends the entry at the end. Keys stay pairwise distinct. |
| JsMap.FromEntries | utils/snapshot.ts:75 | The `Map` built from the NAV-keyed entries never holds a key twice. |
| JsMap.FromEntriesKeys | utils/snapshot.ts:75 | The map's keys are exactly the keys occurring among the constructor's entries. |
| JsMap.FromEntriesLastWins | utils/snapshot.ts:75 | Each key's entry is the last constructor entry with that key: later entries overwrite earlier ones. |
| JsMap.FromEntriesFirstSeenOrder | utils/snapshot.ts:75 | The map iterates keys in the order of their first entry: an overwrite does not move a key. |
| History.NavEntries | utils/snapshot.ts:75 | Each sample is paired with its own NAV as key, position for position, so there is one constructor entry (a `data.map` pair) per input sample. The map itself ends up with one entry per distinct NAV. |
| JsMap.Values | utils/snapshot.ts:75 | `values()` lists one value per map entry, in the map's insertion order. |
| History.Dedup | utils/snapshot.ts:75 | The cleaned series has no two samples with equal NAV. Its NAV set equals the input's. Its length is the number of distinct input NAVs, and it is empty only for empty input. Each kept sample is the last input sample with its NAV, with all fields intact. Samples appear in first-seen order of their NAVs. |
| History.FilterOutSameNav | utils/snapshot.ts:71-76 | `undefined` is returned exactly for `undefined` input. `[]` gives `[]`. Any present array gives its de-duplication. |
| History.DedupUnique | utils/snapshot.ts:75 | The de-duplication rules (distinct NAVs, last sample wins, first-seen order) leave only one possible result, so they pin `Dedup` down completely. |
| History.DedupIdentity | utils/snapshot.ts:75 | A series whose NAVs are already pairwise distinct comes back unchanged, element for element. |
| History.DedupIdempotent | utils/snapshot.ts:75 | Cleaning an already cleaned series changes nothing. |
| Aggregation.Hours | utils/snapshot.ts:121-186 | Every timeframe size is a positive multiple of 24 cleaned samples. When NAVs repeat, those samples span more than that many hours. |
| Aggregation.TimeframeSizes | utils/snapshot.ts:121-186 | The windows hold 24, 7×24, 2×168, 4×168 and 12×168 samples: one day, one week, two weeks, four weeks and twelve weeks. Each is strictly longer than the one before. |
| Aggregation.Slice | utils/snapshot.ts:121 | `slice(start)` returns a suffix of the array. A negative start keeps `min(-start, n)` elements. A non-negative start drops `min(start, n)` elements. |
| Aggregation.SliceFromEnd | utils/snapshot.ts:121 | `slice(-k)` for positive k is the last `min(k, n)` elements. |
| Aggregation.At | utils/snapshot.ts:122-124 | Indexing inside the array gives that element. Indexing outside it, such as `[0]` or `[length - 1]` of an empty array, gives `undefined`. |
| Aggregation.NavOf | utils/snapshot.ts:125-126 | Reading `.nav` of `undefined` throws `NavOfUndefined`, which is the TypeError JavaScript raises. Reading it of a sample returns that sample's NAV. |
| Aggregation.PercentChange | utils/snapshot.ts:127-128 | The change is finite exactly when the oldest NAV is non-zero. Over a zero oldest NAV it is +Infinity, -Infinity or NaN, following the sign of the latest NAV. It is NaN only for 0/0. |
| Aggregation.PercentChangeInverse | utils/snapshot.ts:127-128 | Growing the oldest NAV by the reported percentage gives back the latest NAV. |
| Aggregation.PercentChangeSign | utils/snapshot.ts:127-128 | For a non-zero oldest NAV, the change is zero exactly when latest equals oldest. (At 0/0 it is NaN instead; see `PercentChange`.) With a positive oldest NAV it has the sign of latest minus oldest. With a negative oldest NAV the sign is reversed. |
| Aggregation.TrailingBlock | utils/snapshot.ts:121-134 | A block for a window of k samples throws exactly on an empty cleaned series, because `.nav` is then read from `undefined`. For positive k it otherwise returns the trailing window: the last `min(k, n)` samples, the NAVs of their last and first sample, and the change between them. |
| Aggregation.TimeframeDataOf | utils/snapshot.ts:120-134 | One timeframe block throws exactly on an empty cleaned series. Otherwise its data is the last `min(k, n)` cleaned samples in order. `latestNAV` and `oldestNAV` are the NAVs of the window's last and first sample, and `change` is their percent change. |
| Aggregation.WindowsOf | utils/snapshot.ts:119-202 | The five blocks throw exactly on an empty series. Otherwise each timeframe holds the trailing window of its own size: 24, 168, 336, 672 or 2016 samples. |
| Aggregation.TrailingWindowFacts | utils/snapshot.ts:121-126 | A window covering at least the whole series is the whole series. A shorter one has exactly its size. Every window's latest NAV is the NAV of the cleaned series' last sample. That sample need not be the newest one fetched, because de-duplication leaves each surviving sample where its NAV was first seen. A one-sample series makes latest and oldest coincide. |
| Aggregation.TrailingWindowsNest | utils/snapshot.ts:121-186 | Of two trailing windows of one series, the shorter is a suffix of the longer. |
| Aggregation.WindowsNested | utils/snapshot.ts:119-202 | Across the five timeframes, every shorter window is a suffix of every longer one. A timeframe at least as long as the series covers all of it, so the 2016 window is the whole series when n <= 2016. A timeframe no longer than the series holds exactly that many samples. All windows end at the last sample of the cleaned series. |
| Aggregation.SingleSampleWindows | utils/snapshot.ts:122-128 | For a one-sample series every window is that sample, and latest equals oldest. The change is 0 for a non-zero NAV and NaN for a zero NAV. |
| Aggregation.Aggregate | utils/snapshot.ts:112-212 | The hook body throws exactly when `data` is a present empty array. Otherwise `isLoading` is `!error && !data`, `error` is passed on unchanged, and windows exist exactly when `data` does. Each window is the trailing window of the de-duplicated data. |
| Aggregation.NoDataNoWindows | utils/snapshot.ts:112-119 | Without data there are no windows, `isLoading` is true exactly when there is no error either, and the error is passed on. |
| Aggregation.ThreeSampleExample | utils/snapshot.ts:71-134 | NAVs 100, 100, 110 clean to the second and third samples. The daily window runs from 100 to 110, a change of 10%. |
| Aggregation.RecurringNavExample | utils/snapshot.ts:75-128 | For samples a, b, c with NAVs 100, 110, 100, the cleaned series is `[c, b]`. Its daily window reports latest NAV 110, oldest NAV 100 and a change of +10%, although the newest sample's NAV is 100. |
| Snapshot.UseLeveragedTokenHistoricalData | utils/snapshot.ts:102-212 | The exported hook throws exactly on a present empty array. With `data` undefined, all five `leveragedToken*Data` fields are undefined, `leveragedTokenDataIsLoading` is `!error`, and the error is passed on. So a set error gives "not loading". With data, `leveragedTokenDataIsLoading` is false, as `!error && !data` makes it, and every timeframe field is present and is the trailing window of its size over the cleaned series. |
| SwrHistoricalData.UseLeveragedTokenHistoricalData | components/v1/swr/useLeveragedTokenHistoricalData.ts:24-119 | The same contract under the field names `daily`, `weekly`, `twoWeekly`, `monthly`, `threeMonthly`, `isLoading` and `error`, including `isLoading` being false whenever data is present. This copy's `filterOutSameNAV` (lines 12-15) is the same function as `History.FilterOutSameNav`. |
| SwrHistoricalData.AgreesWithSnapshot | components/v1/swr/useLeveragedTokenHistoricalData.ts:12-118 | For every `data` and `error`, this hook's result is the `utils/snapshot.ts` hook's result with the fields renamed. Both throw together, or they report the same window for every timeframe, the same loading flag and the same error. |

## Left out

- Data fetching is not modelled. This covers `useSWR`, the `fetcher` (`fetch(...).then(res => res.json())`), the endpoint tables and the URL construction. Re-fetching when the chain id or token address changes is left out too. These are network I/O and a third-party library, so the current `data`/`error` pair is an input to the model.
- `useMarkets`, `useMarket` and `useVaultData3Months` are not modelled. Each only forwards a fetch result with `isLoading = !error && !data`.
- The `Market`, `MarketData` and `VaultHistoricalData` types are not modelled. They take no part in the aggregation.
- The portfolio page, the backing card and the market metadata table are not modelled. They are React rendering, wallet and on-chain reads, number formatting and a constant table.
- IEEE-754 arithmetic is not modelled. NAVs are exact reals: no rounding and no overflow to Infinity in finite arithmetic.
- JavaScript `Map` keys are compared with SameValueZero, under which NaN equals NaN and -0 equals +0. Reals have no NaN and one zero, so this is not modelled.
- Aggregation.PercentChange: a zero oldest NAV is taken as +0, so the sign of an infinite change comes from the latest NAV alone. A -0 oldest NAV would flip the sign in JavaScript.
- Nothing checks that the samples are in time order. The source trusts the endpoint's ordering, and so does the model. Even time-ordered input leaves de-duplication out of time order whenever a NAV recurs, because each surviving sample takes the place where its NAV was first seen. A window's `latestNAV` can then be older than the newest NAV fetched, and `Aggregation.RecurringNavExample` exhibits this.

=== FILE: aggregation.dfy ===
/**
 * The aggregation body shared by both `useLeveragedTokenHistoricalData`
 * hooks: de-duplicate the fetched series, cut five trailing windows out of
 * it, and annotate each with the NAV of its last and first sample and the percent change.
 */
module Aggregation {
  import opened Wrappers
  import opened Seqs
  import opened History

  /** The chart timeframes (the `Timeframe` enum); one sample per hour. */
  datatype Timeframe = Daily | Weekly | TwoWeekly | Monthly | ThreeMonthly

  /** Number of trailing samples a timeframe covers. */
  function Hours(t: Timeframe): (h: nat)
    ensures 0 < h
    ensures h % 24 == 0  // a multiple of 24 samples
  {
    match t
    case Daily => 24          // 1 day
    case Weekly => 168        // 1 week
    case TwoWeekly => 336     // 2 weeks
    case Monthly => 672       // 4 weeks
    case ThreeMonthly => 2016 // 12 weeks
  }

  /**
   * The timeframes are one day, one week, two weeks, four weeks and twelve
   * weeks long, each strictly longer than the one before.
   */
  lemma TimeframeSizes()
    ensures Hours(Daily) == 24
    ensures Hours(Weekly) == 7 * Hours(Daily)
    ensures Hours(TwoWeekly) == 2 * Hours(Weekly)
    ensures Hours(Monthly) == 4 * Hours(Weekly)
    ensures Hours(ThreeMonthly) == 12 * Hours(Weekly)
    ensures Hours(Daily) < Hours(Weekly) < Hours(TwoWeekly) < Hours(Monthly) < Hours(ThreeMonthly)
  {
  }

  /** A JavaScript exception escaping the hook. */
  datatype Thrown =
    | NavOfUndefined  // TypeError: reading `nav` of `undefined`

  /** What evaluating JavaScript code yields: a value or a thrown exception. */
  datatype Outcome<+T> = Returned(value: T) | Threw(error: Thrown)

  /** `s.slice(start)` (`Array.prototype.slice` with the end omitted). */
  function Slice<T>(s: seq<T>, start: int): (r: seq<T>)
    ensures start < 0 ==> |r| == Min(-start, |s|)
    ensures 0 <= start ==> |r| == |s| - Min(start, |s|)
    ensures IsSuffix(r, s)
  {
    var from := if start < 0 then Max(|s| + start, 0) else Min(start, |s|);
    s[from..]
  }

  /** `s.slice(-k)` for a positive `k` keeps the last `min(k, |s|)` elements. */
  lemma SliceFromEnd<T>(s: seq<T>, k: nat)
    requires 0 < k
    ensures Slice(s, -(k as int)) == s[|s| - Min(k, |s|)..]
  {
  }

  /** `s[i]`: an index outside the array reads `undefined`. */
  function At<T>(s: seq<T>, i: int): (r: Option<T>)
    ensures r.Some? <==> 0 <= i < |s|
    ensures r.Some? ==> r.value == s[i]
  {
    if 0 <= i < |s| then Some(s[i]) else None
  }

  /** `x.nav`: reading a property of `undefined` throws. */
  function NavOf(x: Option<Sample>): (r: Outcome<real>)
    ensures r.Threw? <==> x.None?
    ensures r.Threw? ==> r.error == NavOfUndefined
    ensures r.Returned? ==> r.value == x.value.nav
  {
    match x
    case Some(sample) => Returned(sample.nav)
    case None => Threw(NavOfUndefined)
  }

  /** A JavaScript number resulting from the percent-change formula. */
  datatype Change = Finite(percent: real) | Infinite(positive: bool) | NotANumber

  /**
   * `((latest - oldest) / oldest) * 100`. Dividing by a zero `oldest`
   * yields +Infinity or -Infinity by the sign of `latest`, and NaN for 0/0.
   */
  function PercentChange(latest: real, oldest: real): (c: Change)
    ensures c.Finite? <==> oldest != 0.0
    ensures oldest == 0.0 ==> (c == Infinite(true) <==> latest > 0.0)
    ensures oldest == 0.0 ==> (c == Infinite(false) <==> latest < 0.0)
    ensures c == NotANumber <==> latest == 0.0 && oldest == 0.0
  {
    if oldest != 0.0 then Finite((latest - oldest) / oldest * 100.0)
    else if latest > 0.0 then Infinite(true)
    else if latest < 0.0 then Infinite(false)
    else NotANumber
  }

  /** The `TimeframeData` record. */
  datatype TimeframeData = TimeframeData(latestNav: real, oldestNav: real, change: Change, data: seq<Sample>)

  /**
   * `w` is the trailing window of `k` samples of the non-empty `cleaned`:
   * its last `min(k, |cleaned|)` samples in their original order, with the
   * NAVs of its last and first sample and the change between them.
   */
  predicate IsTrailingWindow(w: TimeframeData, cleaned: seq<Sample>, k: nat) {
    && 0 < |cleaned|
    && w.data == cleaned[|cleaned| - Min(k, |cleaned|)..]
    && 0 < |w.data|
    && w.latestNav == w.data[|w.data| - 1].nav
    && w.oldestNav == w.data[0].nav
    && w.change == PercentChange(w.latestNav, w.oldestNav)
  }

  /**
   * One timeframe block of the hook body for a window of `k` samples: slice,
   * read the NAV of the window's last and first sample, compute the change.
   */
  function TrailingBlock(cleaned: seq<Sample>, k: nat): (r: Outcome<TimeframeData>)
    ensures r.Threw? <==> |cleaned| == 0
    ensures r.Returned? && 0 < k ==> IsTrailingWindow(r.value, cleaned, k)
  {
    var timeframeData := Slice(cleaned, -(k as int));
    // the last sample's `nav` is read first, so its exception is the one that escapes
    match (NavOf(At(timeframeData, |timeframeData| - 1)), NavOf(At(timeframeData, 0)))
    case (Threw(e), _) => Threw(e)
    case (_, Threw(e)) => Threw(e)
    case (Returned(latestNav), Returned(oldestNav)) =>
      assert 0 < k ==> timeframeData == cleaned[|cleaned| - Min(k, |cleaned|)..] by {
        if 0 < k {
          SliceFromEnd(cleaned, k);
        }
      }
      Returned(TimeframeData(latestNav, oldestNav, PercentChange(latestNav, oldestNav), timeframeData))
  }

  /** The block for one chart timeframe. */
  function TimeframeDataOf(cleaned: seq<Sample>, t: Timeframe): (r: Outcome<TimeframeData>)
    ensures r.Threw? <==> |cleaned| == 0
    ensures r.Returned? ==> IsTrailingWindow(r.value, cleaned, Hours(t))
  {
    TrailingBlock(cleaned, Hours(t))
  }

  /** The five timeframe records computed from one cleaned series. */
  datatype Windows = Windows(
    daily: TimeframeData,
    weekly: TimeframeData,
    twoWeekly: TimeframeData,
    monthly: TimeframeData,
    threeMonthly: TimeframeData)

  function Window(w: Windows, t: Timeframe): TimeframeData {
    match t
    case Daily => w.daily
    case Weekly => w.weekly
    case TwoWeekly => w.twoWeekly
    case Monthly => w.monthly
    case ThreeMonthly => w.threeMonthly
  }

  /** The five blocks inside `if (cleanedData)`, run in source order. */
  function WindowsOf(cleaned: seq<Sample>): (r: Outcome<Windows>)
    ensures r.Threw? <==> |cleaned| == 0
    ensures r.Returned? ==>
              forall t :: IsTrailingWindow(Window(r.value, t), cleaned, Hours(t))
  {
    // the daily block runs first: if it throws, nothing after it runs
    match TimeframeDataOf(cleaned, Daily)
    case Threw(e) => Threw(e)
    case Returned(daily) =>
      var w := Windows(
        daily,
        TimeframeDataOf(cleaned, Weekly).value,
        TimeframeDataOf(cleaned, TwoWeekly).value,
        TimeframeDataOf(cleaned, Monthly).value,
        TimeframeDataOf(cleaned, ThreeMonthly).value);
      WindowsAreTrailing(cleaned, w);
      Returned(w)
  }

  lemma WindowsAreTrailing(cleaned: seq<Sample>, w: Windows)
    requires 0 < |cleaned|
    requires w.daily == TimeframeDataOf(cleaned, Daily).value
    requires w.weekly == TimeframeDataOf(cleaned, Weekly).value
    requires w.twoWeekly == TimeframeDataOf(cleaned, TwoWeekly).value
    requires w.monthly == TimeframeDataOf(cleaned, Monthly).value
    requires w.threeMonthly == TimeframeDataOf(cleaned, ThreeMonthly).value
    ensures forall t :: IsTrailingWindow(Window(w, t), cleaned, Hours(t))
  {
    forall t ensures IsTrailingWindow(Window(w, t), cleaned, Hours(t)) {
      match t
      case Daily =>
      case Weekly =>
      case TwoWeekly =>
      case Monthly =>
      case ThreeMonthly =>
    }
  }

  /** A timeframe's record, or `undefined` when no windows were computed. */
  function WindowOrUndefined(windows: Option<Windows>, t: Timeframe): Option<TimeframeData> {
    match windows
    case None => None
    case Some(w) => Some(Window(w, t))
  }

  /** The hook's result before it is given field names: windows, loading flag, error. */
  datatype Report<E> = Report(windows: Option<Windows>, isLoading: bool, error: Option<E>)

  /**
   * The hook body from `filterOutSameNAV(data)` to the returned object, for
   * the `data` and `error` the fetch layer currently holds.
   */
  function Aggregate<E>(data: Option<seq<Sample>>, error: Option<E>): (r: Outcome<Report<E>>)
    ensures r.Threw? <==> data == Some([])
    ensures r.Returned? ==> r.value.isLoading == (error.None? && data.None?)
    ensures r.Returned? ==> r.value.error == error
    ensures r.Returned? ==> (r.value.windows.Some? <==> data.Some?)
    ensures r.Returned? && data.Some? ==>
              forall t :: IsTrailingWindow(Window(r.value.windows.value, t), Dedup(data.value), Hours(t))
  {
    var isLoading := error.None? && data.None?;  // `!error && !data`
    match FilterOutSameNav(data)
    case None => Returned(Report(None, isLoading, error))
    case Some(cleanedData) =>
      match WindowsOf(cleanedData)
      case Threw(e) => Threw(e)
      case Returned(w) => Returned(Report(Some(w), isLoading, error))
  }

  /** Applying a finite percent change to the oldest NAV gives back the latest NAV. */
  lemma PercentChangeInverse(latest: real, oldest: real)
    requires oldest != 0.0
    ensures PercentChange(latest, oldest).Finite?
    ensures oldest + oldest * PercentChange(latest, oldest).percent / 100.0 == latest
  {
  }

  /**
   * Over a positive oldest NAV the change has the sign of `latest - oldest`;
   * over a negative one the formula flips it.
   */
  lemma PercentChangeSign(latest: real, oldest: real)
    requires oldest != 0.0
    ensures var c := PercentChange(latest, oldest).percent;
            && (c == 0.0 <==> latest == oldest)
            && (0.0 < oldest ==> (0.0 < c <==> oldest < latest) && (c < 0.0 <==> latest < oldest))
            && (oldest < 0.0 ==> (0.0 < c <==> latest < oldest) && (c < 0.0 <==> oldest < latest))
  {
  }

  /** Facts about one trailing window on its own. */
  lemma TrailingWindowFacts(w: TimeframeData, cleaned: seq<Sample>, k: nat)
    requires IsTrailingWindow(w, cleaned, k)
    ensures |cleaned| <= k ==> w.data == cleaned
    ensures k <= |cleaned| ==> |w.data| == k
    ensures w.latestNav == cleaned[|cleaned| - 1].nav
    ensures |cleaned| == 1 ==> w.latestNav == w.oldestNav == cleaned[0].nav
  {
  }

  /** Of two trailing windows of one series, the shorter is the tail of the longer. */
  lemma TrailingWindowsNest(w1: TimeframeData, k1: nat, w2: TimeframeData, k2: nat, cleaned: seq<Sample>)
    requires IsTrailingWindow(w1, cleaned, k1) && IsTrailingWindow(w2, cleaned, k2)
    requires k1 <= k2
    ensures IsSuffix(w1.data, w2.data)
  {
  }

  /**
   * The windows are nested: a shorter timeframe's samples are the tail of a
   * longer one's. A timeframe longer than the series covers all of it, a
   * shorter one holds exactly its number of samples, and every window ends
   * at the last sample of the cleaned series.
   */
  lemma WindowsNested(cleaned: seq<Sample>)
    requires 0 < |cleaned|
    ensures WindowsOf(cleaned).Returned?
    ensures var w := WindowsOf(cleaned).value;
            forall t1, t2 | Hours(t1) <= Hours(t2) :: IsSuffix(Window(w, t1).data, Window(w, t2).data)
    ensures var w := WindowsOf(cleaned).value;
            forall t | |cleaned| <= Hours(t) :: Window(w, t).data == cleaned
    ensures var w := WindowsOf(cleaned).value;
            forall t | Hours(t) <= |cleaned| :: |Window(w, t).data| == Hours(t)
    ensures var w := WindowsOf(cleaned).value;
            forall t :: Window(w, t).latestNav == cleaned[|cleaned| - 1].nav
  {
    var w := WindowsOf(cleaned).value;
    assert forall t :: IsTrailingWindow(Window(w, t), cleaned, Hours(t));
    forall t1, t2 | Hours(t1) <= Hours(t2)
      ensures IsSuffix(Window(w, t1).data, Window(w, t2).data)
    {
      TrailingWindowsNest(Window(w, t1), Hours(t1), Window(w, t2), Hours(t2), cleaned);
    }
    forall t ensures
      && (|cleaned| <= Hours(t) ==> Window(w, t).data == cleaned)
      && (Hours(t) <= |cleaned| ==> |Window(w, t).data| == Hours(t))
      && Window(w, t).latestNav == cleaned[|cleaned| - 1].nav
    {
      TrailingWindowFacts(Window(w, t), cleaned, Hours(t));
    }
  }

  /** A one-sample series gives every window the same latest and oldest NAV and no change. */
  lemma SingleSampleWindows(cleaned: seq<Sample>)
    requires |cleaned| == 1
    ensures WindowsOf(cleaned).Returned?
    ensures var w := WindowsOf(cleaned).value;
            forall t :: Window(w, t).data == cleaned
    ensures var w := WindowsOf(cleaned).value;
            forall t :: Window(w, t).latestNav == Window(w, t).oldestNav == cleaned[0].nav
    ensures var w := WindowsOf(cleaned).value;
            cleaned[0].nav != 0.0 ==> forall t :: Window(w, t).change == Finite(0.0)
    ensures var w := WindowsOf(cleaned).value;
            cleaned[0].nav == 0.0 ==> forall t :: Window(w, t).change == NotANumber
  {
    var w := WindowsOf(cleaned).value;
    assert forall t :: IsTrailingWindow(Window(w, t), cleaned, Hours(t));
    forall t ensures Window(w, t).data == cleaned && Window(w, t).latestNav == Window(w, t).oldestNav == cleaned[0].nav {
      TrailingWindowFacts(Window(w, t), cleaned, Hours(t));
    }
  }

  /** Without data there are no windows; the error is passed on and loading means "no error either". */
  lemma NoDataNoWindows<E>(error: Option<E>)
    ensures Aggregate(None, error) == Returned(Report(None, error.None?, error))
  {
  }

  /**
   * Three samples with NAVs 100, 100, 110: the second sample replaces the
   * first, and the daily window runs from 100 to 110, a change of 10%.
   */
  lemma ThreeSampleExample(a: Sample, b: Sample, c: Sample)
    requires a.nav == 100.0 && b.nav == 100.0 && c.nav == 110.0
    ensures Dedup([a, b, c]) == [b, c]
    ensures var r := Aggregate<string>(Some([a, b, c]), None);
            && r.Returned?
            && r.value.windows.Some?
            && Window(r.value.windows.value, Daily)
               == TimeframeData(110.0, 100.0, Finite(10.0), [b, c])
  {
    var s := [a, b, c];
    assert Navs(s) == [100.0, 100.0, 110.0];
    assert Navs([b, c]) == [100.0, 110.0];
    assert IsDedupOf([b, c], s) by {
      assert LastIndexOf(Navs(s), 100.0) == 1;
      assert FirstIndexOf(Navs(s), 110.0) == 2;
      assert ToSet(Navs([b, c])) == ToSet(Navs(s)) == {100.0, 110.0};
    }
    DedupUnique(Dedup(s), [b, c], s);
    SliceFromEnd([b, c], 24);
    assert TimeframeDataOf([b, c], Daily) == Returned(TimeframeData(110.0, 100.0, Finite(10.0), [b, c]));
  }

  /**
   * Three samples with NAVs 100, 110, 100: the third sample replaces the
   * first IN THE FIRST ONE'S PLACE, so the cleaned series ends with the 110
   * sample. The daily window then reports 110 as its latest NAV and +10%,
   * although the newest sample's NAV is 100.
   */
  lemma RecurringNavExample(a: Sample, b: Sample, c: Sample)
    requires a.nav == 100.0 && b.nav == 110.0 && c.nav == 100.0
    ensures Dedup([a, b, c]) == [c, b]
    ensures var r := Aggregate<string>(Some([a, b, c]), None);
            && r.Returned?
            && r.value.windows.Some?
            && Window(r.value.windows.value, Daily)
               == TimeframeData(110.0, 100.0, Finite(10.0), [c, b])
  {
    var s := [a, b, c];
    assert Navs(s) == [100.0, 110.0, 100.0];
    assert Navs([c, b]) == [100.0, 110.0];
    assert IsDedupOf([c, b], s) by {
      assert LastIndexOf(Navs(s), 100.0) == 2;
      assert LastIndexOf(Navs(s), 110.0) == 1;
      assert FirstIndexOf(Navs(s), 100.0) == 0;
      assert FirstIndexOf(Navs(s), 110.0) == 1;
      assert ToSet(Navs([c, b])) == ToSet(Navs(s)) == {100.0, 110.0};
    }
    DedupUnique(Dedup(s), [c, b], s);
    SliceFromEnd([c, b], 24);
    assert TimeframeDataOf([c, b], Daily) == Returned(TimeframeData(110.0, 100.0, Finite(10.0), [c, b]));
  }
}

=== FILE: history.dfy ===
/**
 * The historical NAV series of a leveraged token and its clean-up step,
 * `filterOutSameNAV`: samples are keyed by `nav` in a JavaScript `Map`,
 * so for every NAV value only one sample survives.
 */
module History {
  import opened Wrappers
  import opened Seqs
  import JsMap

  /**
   * One hourly snapshot, the `LeveragedTokenHistoricalData` record. Only
   * `nav` takes part in the aggregation; the other fields ride along.
   */
  datatype Sample = Sample(
    timestamp: string,
    collateralPerLeveragedToken: real,
    debtPerLeveragedToken: real,
    leverageRatio: real,
    nav: real)

  /** The NAV of every sample, in series order. */
  function Navs(s: seq<Sample>): (vs: seq<real>)
    ensures |vs| == |s|
    ensures forall i | 0 <= i < |s| :: vs[i] == s[i].nav
  {
    seq(|s|, i requires 0 <= i < |s| => s[i].nav)
  }

  /** Each sample paired with its NAV as key: the entries the NAV-keyed map is built from. */
  function NavEntries(s: seq<Sample>): (ps: seq<JsMap.Entry<real, Sample>>)
    ensures |ps| == |s|
    ensures forall i | 0 <= i < |s| :: ps[i] == JsMap.Entry(s[i].nav, s[i])
  {
    seq(|s|, i requires 0 <= i < |s| => JsMap.Entry(s[i].nav, s[i]))
  }

  /**
   * `d` is the de-duplication of `s`: one sample per distinct NAV of `s`,
   * each one being the LAST sample of `s` with that NAV, listed in the
   * order in which the NAVs FIRST appear in `s`.
   */
  predicate IsDedupOf(d: seq<Sample>, s: seq<Sample>) {
    && Distinct(Navs(d))
    && ToSet(Navs(d)) == ToSet(Navs(s))
    && (forall t | 0 <= t < |d| :: d[t].nav in Navs(s) && d[t] == s[LastIndexOf(Navs(s), d[t].nav)])
    && InFirstSeenOrder(Navs(d), Navs(s))
  }

  /**
   * The values of a NAV-keyed, insertion-ordered map built from the samples,
   * read in key order.
   */
  function Dedup(s: seq<Sample>): (d: seq<Sample>)
    ensures IsDedupOf(d, s)
    ensures |d| == |ToSet(Navs(s))|
    ensures |d| == 0 <==> |s| == 0
  {
    var m := JsMap.FromEntries(NavEntries(s));
    MapOfNavEntries(s);
    JsMap.Values(m)
  }

  /** The values of the NAV-keyed map form a de-duplication of the series. */
  lemma MapOfNavEntries(s: seq<Sample>)
    ensures var d := JsMap.Values(JsMap.FromEntries(NavEntries(s)));
            IsDedupOf(d, s) && |d| == |ToSet(Navs(s))|
  {
    var ps := NavEntries(s);
    var m := JsMap.FromEntries(ps);
    var d := JsMap.Values(m);
    assert JsMap.Keys(ps) == Navs(s);
    JsMap.FromEntriesKeys(ps);
    JsMap.FromEntriesLastWins(ps);
    JsMap.FromEntriesFirstSeenOrder(ps);
    forall t | 0 <= t < |d|
      ensures d[t].nav == m[t].key
      ensures d[t].nav in Navs(s) && d[t] == s[LastIndexOf(Navs(s), d[t].nav)]
    {
      assert JsMap.Keys(m)[t] == m[t].key;
      var n := LastIndexOf(Navs(s), m[t].key);
      assert m[t] == ps[n];
    }
    assert Navs(d) == JsMap.Keys(m);
    assert ToSet(Navs(d)) == ToSet(Navs(s));
    DistinctCardinality(Navs(d));
  }

  /** `filterOutSameNAV`: `undefined` passes through, any array (even `[]`) is de-duplicated. */
  function FilterOutSameNav(data: Option<seq<Sample>>): (r: Option<seq<Sample>>)
    ensures r.None? <==> data.None?
    ensures data == Some([]) ==> r == Some([])
    ensures data.Some? ==> IsDedupOf(r.value, data.value)
  {
    match data
    case None => None
    case Some(s) => Some(Dedup(s))
  }

  /** There is only one de-duplication of a series. */
  lemma DedupUnique(a: seq<Sample>, b: seq<Sample>, s: seq<Sample>)
    requires IsDedupOf(a, s) && IsDedupOf(b, s)
    ensures a == b
  {
    FirstSeenOrderUnique(Navs(a), Navs(b), Navs(s));
    forall t | 0 <= t < |a| ensures a[t] == b[t] {
      assert Navs(a)[t] == Navs(b)[t];
    }
  }

  /** A series whose NAVs are already pairwise distinct comes back unchanged. */
  lemma DedupIdentity(s: seq<Sample>)
    requires Distinct(Navs(s))
    ensures Dedup(s) == s
  {
    forall t | 0 <= t < |s| ensures LastIndexOf(Navs(s), s[t].nav) == t && FirstIndexOf(Navs(s), s[t].nav) == t {
      assert Navs(s)[t] == s[t].nav;
    }
    assert IsDedupOf(s, s);
    DedupUnique(Dedup(s), s, s);
  }

  /** De-duplicating twice is the same as de-duplicating once. */
  lemma DedupIdempotent(s: seq<Sample>)
    ensures Dedup(Dedup(s)) == Dedup(s)
  {
    DedupIdentity(Dedup(s));
  }
}

=== FILE: js_map.dfy ===
/**
 * The part of JavaScript's `Map` the NAV de-duplication relies on: a map
 * remembers its keys in first-insertion order, and `set` on a key already
 * present replaces that key's value without moving it.  A map is an
 * association list whose keys never repeat.
 */
module JsMap {
  import opened Seqs

  datatype Entry<K, V> = Entry(key: K, value: V)

  /** The keys in iteration order (`map.keys()`). */
  function Keys<K, V>(m: seq<Entry<K, V>>): (ks: seq<K>)
    ensures |ks| == |m|
    ensures forall i | 0 <= i < |m| :: ks[i] == m[i].key
  {
    seq(|m|, i requires 0 <= i < |m| => m[i].key)
  }

  /** The values in iteration order (`map.values()`). */
  function Values<K, V>(m: seq<Entry<K, V>>): (vs: seq<V>)
    ensures |vs| == |m|
    ensures forall i | 0 <= i < |m| :: vs[i] == m[i].value
  {
    seq(|m|, i requires 0 <= i < |m| => m[i].value)
  }

  /** `map.set(k, v)`: overwrite the value of `k` in place, or append a new entry. */
  function Set<K(==), V>(m: seq<Entry<K, V>>, k: K, v: V): (r: seq<Entry<K, V>>)
    ensures Keys(r) == if k in Keys(m) then Keys(m) else Keys(m) + [k]
    ensures k !in Keys(m) ==> r == m + [Entry(k, v)]
    ensures Distinct(Keys(m)) ==>
              forall i | 0 <= i < |m| :: r[i] == if m[i].key == k then Entry(k, v) else m[i]
    ensures Distinct(Keys(m)) ==> Distinct(Keys(r))
  {
    if k in Keys(m) then
      var i := FirstIndexOf(Keys(m), k);
      var r := m[i := Entry(k, v)];
      assert Keys(r) == Keys(m);
      r
    else
      var r := m + [Entry(k, v)];
      assert Keys(r) == Keys(m) + [k];
      assert Distinct(Keys(m)) ==> Distinct(Keys(r)) by {
        if Distinct(Keys(m)) {
          DistinctAppend(Keys(m), k);
        }
      }
      r
  }

  /** `new Map(entries)`: the entries are `set` one after another, left to right. */
  function FromEntries<K(==), V>(ps: seq<Entry<K, V>>): (r: seq<Entry<K, V>>)
    ensures Distinct(Keys(r))
  {
    if |ps| == 0 then [] else
      var last := ps[|ps| - 1];
      Set(FromEntries(ps[..|ps| - 1]), last.key, last.value)
  }

  lemma KeysAppend<K, V>(ps: seq<Entry<K, V>>, p: Entry<K, V>)
    ensures Keys(ps + [p]) == Keys(ps) + [p.key]
  {
  }

  /** The map holds exactly the keys that occur among the entries. */
  lemma {:induction false} FromEntriesKeys<K, V>(ps: seq<Entry<K, V>>)
    ensures forall k :: k in Keys(FromEntries(ps)) <==> k in Keys(ps)
  {
    if |ps| > 0 {
      var init, last := ps[..|ps| - 1], ps[|ps| - 1];
      assert ps == init + [last];
      KeysAppend(init, last);
      FromEntriesKeys(init);
    }
  }

  /** Each key's value is the value of the LAST entry carrying that key: later entries overwrite. */
  predicate LastWins<K(==), V(==)>(r: seq<Entry<K, V>>, ps: seq<Entry<K, V>>) {
    forall i | 0 <= i < |r| :: r[i].key in Keys(ps) && r[i] == ps[LastIndexOf(Keys(ps), r[i].key)]
  }

  lemma {:induction false} FromEntriesLastWins<K, V>(ps: seq<Entry<K, V>>)
    ensures LastWins(FromEntries(ps), ps)
  {
    if |ps| > 0 {
      var init, last := ps[..|ps| - 1], ps[|ps| - 1];
      assert ps == init + [last];
      FromEntriesLastWins(init);
      FromEntriesKeys(init);
      LastWinsStep(FromEntries(init), init, last);
    }
  }

  /** One `set` keeps "last entry wins" true of the map built so far. */
  lemma LastWinsStep<K, V>(m: seq<Entry<K, V>>, init: seq<Entry<K, V>>, last: Entry<K, V>)
    requires Distinct(Keys(m))
    requires forall k :: k in Keys(m) <==> k in Keys(init)
    requires LastWins(m, init)
    ensures LastWins(Set(m, last.key, last.value), init + [last])
  {
    var r, ps := Set(m, last.key, last.value), init + [last];
    KeysAppend(init, last);
    forall i | 0 <= i < |r|
      ensures r[i].key in Keys(ps) && r[i] == ps[LastIndexOf(Keys(ps), r[i].key)]
    {
      var k := r[i].key;
      assert Keys(r)[i] == k;
      LastIndexOfAppend(Keys(init), last.key, k);
      if i < |m| && m[i].key != last.key {
        assert r[i] == m[i];
        var n := LastIndexOf(Keys(init), k);
        assert ps[n] == init[n];
      } else {
        assert r[i] == last;
      }
    }
  }

  /** Keys iterate in the order of their FIRST entry: an overwrite does not move a key. */
  lemma {:induction false} FromEntriesFirstSeenOrder<K, V>(ps: seq<Entry<K, V>>)
    ensures InFirstSeenOrder(Keys(FromEntries(ps)), Keys(ps))
  {
    if |ps| > 0 {
      var init, last := ps[..|ps| - 1], ps[|ps| - 1];
      assert ps == init + [last];
      FromEntriesKeys(init);
      FromEntriesFirstSeenOrder(init);
      FirstSeenStep(FromEntries(init), init, last);
    }
  }

  /** One `set` keeps the map's keys in first-seen order of the entries read so far. */
  lemma FirstSeenStep<K, V>(m: seq<Entry<K, V>>, init: seq<Entry<K, V>>, last: Entry<K, V>)
    requires forall k :: k in Keys(m) <==> k in Keys(init)
    requires InFirstSeenOrder(Keys(m), Keys(init))
    ensures InFirstSeenOrder(Keys(Set(m, last.key, last.value)), Keys(init + [last]))
  {
    var mk, rk := Keys(m), Keys(Set(m, last.key, last.value));
    var ks := Keys(init);
    KeysAppend(init, last);
    forall i | 0 <= i < |rk| ensures rk[i] in ks + [last.key] {
      if i < |mk| {
        assert rk[i] == mk[i] && mk[i] in ks;
      }
    }
    forall i, j | 0 <= i < j < |rk|
      ensures FirstIndexOf(ks + [last.key], rk[i]) < FirstIndexOf(ks + [last.key], rk[j])
    {
      assert rk[i] == mk[i] && mk[i] in ks;
      FirstIndexOfAppend(ks, last.key, rk[i]);
      if j < |mk| {
        assert rk[j] == mk[j] && mk[j] in ks;
        FirstIndexOfAppend(ks, last.key, rk[j]);
      } else {
        assert rk[j] == last.key && last.key !in ks;
        assert (ks + [last.key])[|ks|] == last.key;
      }
    }
  }
}

=== FILE: seqs.dfy ===
/** Sequence vocabulary shared by the ordered-map model and the NAV series. */
module Seqs {

  /** No value occurs twice in `xs`. */
  predicate Distinct<T(==)>(xs: seq<T>) {
    forall i, j | 0 <= i < j < |xs| :: xs[i] != xs[j]
  }

  /** Appending a new value keeps a sequence free of repetitions. */
  lemma DistinctAppend<T>(xs: seq<T>, x: T)
    requires Distinct(xs) && x !in xs
    ensures Distinct(xs + [x])
  {
  }

  /** The values occurring in `xs`. */
  function ToSet<T>(xs: seq<T>): set<T> {
    set x | x in xs
  }

  /** `a` is a trailing part of `b`. */
  predicate IsSuffix<T(==)>(a: seq<T>, b: seq<T>) {
    |a| <= |b| && a == b[|b| - |a|..]
  }

  function Min(a: int, b: int): int {
    if a <= b then a else b
  }

  function Max(a: int, b: int): int {
    if a <= b then b else a
  }

  /** Position of the first occurrence of `x` in `xs`. */
  function FirstIndexOf<T(==)>(xs: seq<T>, x: T): (i: nat)
    requires x in xs
    ensures i < |xs| && xs[i] == x
    ensures forall j | 0 <= j < i :: xs[j] != x
  {
    if xs[0] == x then 0 else 1 + FirstIndexOf(xs[1..], x)
  }

  /** Position of the last occurrence of `x` in `xs`. */
  function LastIndexOf<T(==)>(xs: seq<T>, x: T): (i: nat)
    requires x in xs
    ensures i < |xs| && xs[i] == x
    ensures forall j | i < j < |xs| :: xs[j] != x
  {
    if xs[|xs| - 1] == x then |xs| - 1 else LastIndexOf(xs[..|xs| - 1], x)
  }

  /** Appending a value does not move the first occurrence of one already present. */
  lemma FirstIndexOfAppend<T>(xs: seq<T>, y: T, x: T)
    requires x in xs
    ensures FirstIndexOf(xs + [y], x) == FirstIndexOf(xs, x)
  {
    var i, k := FirstIndexOf(xs + [y], x), FirstIndexOf(xs, x);
    assert (xs + [y])[k] == x;
    assert i <= k;
    assert xs[i] == x;
  }

  /** Appending `y` makes it the last occurrence of `y` and leaves other values' last occurrences alone. */
  lemma LastIndexOfAppend<T>(xs: seq<T>, y: T, x: T)
    requires x in xs + [y]
    ensures LastIndexOf(xs + [y], x) == if x == y then |xs| else LastIndexOf(xs, x)
  {
  }

  /** A sequence without repetitions has as many elements as values. */
  lemma {:induction false} DistinctCardinality<T>(xs: seq<T>)
    requires Distinct(xs)
    ensures |ToSet(xs)| == |xs|
  {
    if |xs| > 0 {
      var tail := xs[1..];
      assert Distinct(tail) by {
        forall i, j | 0 <= i < j < |tail| ensures tail[i] != tail[j] {
          assert tail[i] == xs[i + 1] && tail[j] == xs[j + 1];
        }
      }
      DistinctCardinality(tail);
      assert xs[0] !in ToSet(tail);
      assert ToSet(xs) == {xs[0]} + ToSet(tail) by {
        assert xs == [xs[0]] + tail;
      }
    }
  }

  /** Only the empty sequence has no values. */
  lemma EmptyToSet<T>(xs: seq<T>)
    ensures ToSet(xs) == {} <==> xs == []
  {
    if xs != [] {
      assert xs[0] in ToSet(xs);
    }
  }

  /** `xs` lists its elements in strictly increasing order of first occurrence in `order`. */
  predicate InFirstSeenOrder<T(==)>(xs: seq<T>, order: seq<T>) {
    && (forall i | 0 <= i < |xs| :: xs[i] in order)
    && (forall i, j | 0 <= i < j < |xs| :: FirstIndexOf(order, xs[i]) < FirstIndexOf(order, xs[j]))
  }

  /** The head of a sequence in first-seen order is the value seen first. */
  lemma FirstSeenHead<T>(xs: seq<T>, ys: seq<T>, order: seq<T>)
    requires InFirstSeenOrder(xs, order) && InFirstSeenOrder(ys, order)
    requires ToSet(xs) == ToSet(ys)
    requires |xs| > 0 && |ys| > 0
    ensures xs[0] == ys[0]
  {
    assert xs[0] in ToSet(ys) && ys[0] in ToSet(xs);
    var i := FirstIndexOf(xs, ys[0]);
    var j := FirstIndexOf(ys, xs[0]);
    assert FirstIndexOf(order, xs[0]) <= FirstIndexOf(order, xs[i]);
    assert FirstIndexOf(order, ys[0]) <= FirstIndexOf(order, ys[j]);
  }

  /** Dropping the head keeps first-seen order and removes exactly the head's value. */
  lemma FirstSeenTail<T>(xs: seq<T>, order: seq<T>)
    requires InFirstSeenOrder(xs, order) && |xs| > 0
    ensures InFirstSeenOrder(xs[1..], order)
    ensures ToSet(xs[1..]) == ToSet(xs) - {xs[0]}
  {
  }

  /**
   * Two sequences holding the same values, both in first-seen order with
   * respect to the same reference sequence, are equal.
   */
  lemma {:induction false} FirstSeenOrderUnique<T>(xs: seq<T>, ys: seq<T>, order: seq<T>)
    requires InFirstSeenOrder(xs, order) && InFirstSeenOrder(ys, order)
    requires ToSet(xs) == ToSet(ys)
    ensures xs == ys
  {
    EmptyToSet(xs);
    EmptyToSet(ys);
    if |xs| > 0 && |ys| > 0 {
      FirstSeenHead(xs, ys, order);
      FirstSeenTail(xs, order);
      FirstSeenTail(ys, order);
      FirstSeenOrderUnique(xs[1..], ys[1..], order);
      assert xs == [xs[0]] + xs[1..] && ys == [ys[0]] + ys[1..];
    }
  }
}

=== FILE: snapshot_hook.dfy ===
/**
 * `useLeveragedTokenHistoricalData` as exported by utils/snapshot.ts: the
 * shared aggregation, returned under `leveragedToken*` field names.
 */
module Snapshot {
  import opened Wrappers
  import opened History
  import opened Aggregation

  /** The object the hook returns; `E` is the fetch layer's `Error`. */
  datatype HistoricalData<E> = HistoricalData(
    leveragedTokenDailyData: Option<TimeframeData>,
    leveragedTokenWeeklyData: Option<TimeframeData>,
    leveragedTokenTwoWeeklyData: Option<TimeframeData>,
    leveragedTokenMonthlyData: Option<TimeframeData>,
    leveragedTokenThreeMonthlyData: Option<TimeframeData>,
    leveragedTokenDataIsLoading: bool,
    leveragedTokenDataIsError: Option<E>)
  {
    /** The field holding timeframe `t`. */
    function Field(t: Timeframe): Option<TimeframeData> {
      match t
      case Daily => leveragedTokenDailyData
      case Weekly => leveragedTokenWeeklyData
      case TwoWeekly => leveragedTokenTwoWeeklyData
      case Monthly => leveragedTokenMonthlyData
      case ThreeMonthly => leveragedTokenThreeMonthlyData
    }
  }

  /**
   * The hook for the `data` and `error` the fetch currently holds. With no
   * data every timeframe is `undefined`; a present but empty array throws.
   */
  function UseLeveragedTokenHistoricalData<E>(data: Option<seq<Sample>>, error: Option<E>)
    : (r: Outcome<HistoricalData<E>>)
    ensures r.Threw? <==> data == Some([])
    ensures data.None? ==>
              r == Returned(HistoricalData(None, None, None, None, None, error.None?, error))
    ensures r.Returned? && data.Some? ==>
              forall t :: r.value.Field(t).Some? && IsTrailingWindow(r.value.Field(t).value, Dedup(data.value), Hours(t))
    ensures r.Returned? ==> r.value.leveragedTokenDataIsLoading == (error.None? && data.None?)
    ensures r.Returned? ==> r.value.leveragedTokenDataIsError == error
  {
    match Aggregate(data, error)
    case Threw(e) => Threw(e)
    case Returned(report) =>
      var result := HistoricalData(
        WindowOrUndefined(report.windows, Daily),
        WindowOrUndefined(report.windows, Weekly),
        WindowOrUndefined(report.windows, TwoWeekly),
        WindowOrUndefined(report.windows, Monthly),
        WindowOrUndefined(report.windows, ThreeMonthly),
        report.isLoading,
        report.error);
      FieldsFromWindows(result, report.windows);
      Returned(result)
  }

  lemma FieldsFromWindows<E>(result: HistoricalData<E>, windows: Option<Windows>)
    requires result.leveragedTokenDailyData == WindowOrUndefined(windows, Daily)
    requires result.leveragedTokenWeeklyData == WindowOrUndefined(windows, Weekly)
    requires result.leveragedTokenTwoWeeklyData == WindowOrUndefined(windows, TwoWeekly)
    requires result.leveragedTokenMonthlyData == WindowOrUndefined(windows, Monthly)
    requires result.leveragedTokenThreeMonthlyData == WindowOrUndefined(windows, ThreeMonthly)
    ensures forall t :: result.Field(t) == WindowOrUndefined(windows, t)
  {
  }
}

=== FILE: swr_hook.dfy ===
/**
 * `useLeveragedTokenHistoricalData` as exported by
 * components/v1/swr/useLeveragedTokenHistoricalData.ts: the same
 * aggregation, returned under short field names.
 */
module SwrHistoricalData {
  import opened Wrappers
  import opened History
  import opened Aggregation
  import Snapshot

  /** The object the hook returns; `E` is the fetch layer's `Error`. */
  datatype HistoricalData<E> = HistoricalData(
    daily: Option<TimeframeData>,
    weekly: Option<TimeframeData>,
    twoWeekly: Option<TimeframeData>,
    monthly: Option<TimeframeData>,
    threeMonthly: Option<TimeframeData>,
    isLoading: bool,
    error: Option<E>)
  {
    /** The field holding timeframe `t`. */
    function Field(t: Timeframe): Option<TimeframeData> {
      match t
      case Daily => daily
      case Weekly => weekly
      case TwoWeekly => twoWeekly
      case Monthly => monthly
      case ThreeMonthly => threeMonthly
    }
  }

  /**
   * The hook for the `data` and `error` the fetch currently holds. With no
   * data every timeframe is `undefined`; a present but empty array throws.
   */
  function UseLeveragedTokenHistoricalData<E>(data: Option<seq<Sample>>, error: Option<E>)
    : (r: Outcome<HistoricalData<E>>)
    ensures r.Threw? <==> data == Some([])
    ensures data.None? ==>
              r == Returned(HistoricalData(None, None, None, None, None, error.None?, error))
    ensures r.Returned? && data.Some? ==>
              forall t :: r.value.Field(t).Some? && IsTrailingWindow(r.value.Field(t).value, Dedup(data.value), Hours(t))
    ensures r.Returned? ==> r.value.isLoading == (error.None? && data.None?)
    ensures r.Returned? ==> r.value.error == error
  {
    match Aggregate(data, error)
    case Threw(e) => Threw(e)
    case Returned(report) =>
      var result := HistoricalData(
        WindowOrUndefined(report.windows, Daily),
        WindowOrUndefined(report.windows, Weekly),
        WindowOrUndefined(report.windows, TwoWeekly),
        WindowOrUndefined(report.windows, Monthly),
        WindowOrUndefined(report.windows, ThreeMonthly),
        report.isLoading,
        report.error);
      FieldsFromWindows(result, report.windows);
      Returned(result)
  }

  lemma FieldsFromWindows<E>(result: HistoricalData<E>, windows: Option<Windows>)
    requires result.daily == WindowOrUndefined(windows, Daily)
    requires result.weekly == WindowOrUndefined(windows, Weekly)
    requires result.twoWeekly == WindowOrUndefined(windows, TwoWeekly)
    requires result.monthly == WindowOrUndefined(windows, Monthly)
    requires result.threeMonthly == WindowOrUndefined(windows, ThreeMonthly)
    ensures forall t :: result.Field(t) == WindowOrUndefined(windows, t)
  {
  }

  /** The snapshot hook's result with its fields renamed to this hook's names. */
  function Renamed<E>(r: Outcome<Snapshot.HistoricalData<E>>): Outcome<HistoricalData<E>> {
    match r
    case Threw(e) => Threw(e)
    case Returned(h) =>
      Returned(HistoricalData(
        h.leveragedTokenDailyData,
        h.leveragedTokenWeeklyData,
        h.leveragedTokenTwoWeeklyData,
        h.leveragedTokenMonthlyData,
        h.leveragedTokenThreeMonthlyData,
        h.leveragedTokenDataIsLoading,
        h.leveragedTokenDataIsError))
  }

  /**
   * Both hooks compute the same thing: for every input they throw together,
   * or return the same five timeframes, loading flag and error, differing
   * only in the names of the fields.
   */
  lemma AgreesWithSnapshot<E>(data: Option<seq<Sample>>, error: Option<E>)
    ensures UseLeveragedTokenHistoricalData(data, error)
            == Renamed(Snapshot.UseLeveragedTokenHistoricalData(data, error))
    ensures var mine, theirs := UseLeveragedTokenHistoricalData(data, error),
                                Snapshot.UseLeveragedTokenHistoricalData(data, error);
            mine.Returned? ==> forall t :: mine.value.Field(t) == theirs.value.Field(t)
  {
    match Aggregate(data, error)
    case Threw(_) =>
    case Returned(report) =>
      var mine := UseLeveragedTokenHistoricalData(data, error).value;
      var theirs := Snapshot.UseLeveragedTokenHistoricalData(data, error).value;
      FieldsFromWindows(mine, report.windows);
      Snapshot.FieldsFromWindows(theirs, report.windows);
  }
}

=== FILE: wrappers.dfy ===
/** Optional values: the model of a TypeScript `T | undefined`. */
module Wrappers {

  /** `None` stands for JavaScript's `undefined`. */
  datatype Option<+T> = None | Some(value: T)
}
